=== FILE: README.md ===
# Webhook classifier and campaign store of the Despachante Marcelino dashboard

This project models the two pieces of decision logic in the Google Ads dashboard of the
Despachante Marcelino vehicle-documentation service, and proves properties about them.

- **Webhook receiver** (`webhook.dfy`, module `Webhook`). A serverless handler. It sets three
  CORS headers, answers an `OPTIONS` preflight, checks the shared secret (`x-webhook-secret`
  or else `authorization`, compared with `WEBHOOK_SECRET` by strict equality), and refuses
  methods other than `POST`. It destructures the body as `{ event, data }` and dispatches on
  `event` to one of four logging stubs (`message`, `lead`, `conversion`, `payment`). The result
  is a 200 acknowledgement, or a 401, 405 or 500 error. `Handle` is a pure function from the
  request, the configured secret, the timestamp and the thrown exception's message to a
  `Response`: a status, the headers, a body and the stub dispatched, if any.
- **Mock campaign API** (`campaign_store.dfy`, module `CampaignStore`). Create, update and
  delete on the in-memory list of campaign records. A record is a map from property name to
  value, so object spread is map union. A thrown `Error('Campaign not found')` becomes an
  `Err` result, and the list stays unchanged.
- **Dashboard helpers** (`dashboard.dfy`, module `Dashboard`). The theme toggle, the
  `slice(0, 5)` of recent campaigns (through a model of JavaScript's `Array.prototype.slice`),
  the status badge, and the notification icon and colour switches.
- `wrappers.dfy` (module `Wrappers`) holds `Option` (JavaScript `undefined`) and `Result`.

The secret check runs before the method check (api/webhook.js:15-21), so an unauthenticated
`GET` gets 401 and only an authenticated non-`POST` gets 405.

Each call is a pure function of its inputs, so two identical deliveries with the same `now`
give identical responses. In the running handler each delivery reads its own clock, so the
`timestamp` field differs. This replay property needs no separate lemma.

## Model

| member | source | states |
|---|---|---|
| Webhook.Handle | api/webhook.js:2-67 | Every response carries the three CORS headers. `OPTIONS` gets 200 with an empty body and no dispatch. Status 401 iff the method is not `OPTIONS` and the presented secret differs from the configured one, with body `{error:'Unauthorized'}`. Status 405 iff authenticated and the method is neither `OPTIONS` nor `POST`. Status 500 iff an authenticated `POST` has no body, with `error` and the thrown message. Acknowledged iff an authenticated `POST` has a body: 200, `success: true`, the message 'Webhook processado com sucesso', the timestamp, and `event` echoed. A stub runs iff the acknowledged event is a known tag, and it is the stub `Route` picks. The status is always one of 200, 401, 405, 500 |
| Webhook.PresentedSecret | api/webhook.js:15 | The presented secret is `x-webhook-secret` when that header is present and non-empty. Otherwise it is `authorization` as sent. It is absent when both headers are absent |
| Webhook.Route | api/webhook.js:29-48 | Each of the four tags selects its own stub, both directions. Every other event, `undefined` included, selects none |
| Webhook.PreflightIgnoresSecret | api/webhook.js:9-12 | Two `OPTIONS` requests get the same response whatever their headers, bodies or configured secrets |
| Webhook.UnauthenticatedIs401 | api/webhook.js:14-21 | Any request other than `OPTIONS` (a `GET` among them) with a wrong or missing secret gets 401 `{error:'Unauthorized'}` whatever its body, never 405 |
| Webhook.NoSecretNoHeaderPasses | api/webhook.js:15-16 | With no configured secret and neither header sent, the check passes (`undefined === undefined`), and a `POST` with a body gets 200 |
| Webhook.EmptyWebhookSecretFallsBack | api/webhook.js:15 | An empty `x-webhook-secret` is falsy, so the `authorization` header is used |
| Webhook.AcceptedPostDispatch | api/webhook.js:29-56 | An authenticated `POST` with a body gets 200 with `success: true` and its event echoed. A stub is dispatched iff the event is one of the four tags |
| CampaignStore.FindIndex | src/pages/Index.tsx:167 | Returns the first index whose record has the id as text, with no earlier match. Returns None iff no record has the id |
| CampaignStore.Create | src/pages/Index.tsx:154-163 | The list grows by one and earlier records are unchanged. The new record is last and is the one returned. Its `id` is the fresh id and its `status` is `ACTIVE`, overriding supplied values. Its keys are the supplied keys plus `id` and `status`, and every other supplied property is kept |
| CampaignStore.Update | src/pages/Index.tsx:165-173 | Fails with "Campaign not found" iff no record has the id. Otherwise the length is unchanged and only the first match is replaced. The replacement is the old record merged with the updates: update properties win and the others are kept. The merged record is returned |
| CampaignStore.Delete | src/pages/Index.tsx:175-183 | Fails with "Campaign not found" iff no record has the id. Otherwise it returns `true`, and the list is the old one with exactly the first match spliced out, one shorter |
| CampaignStore.DeleteRemovesOneMatch | src/pages/Index.tsx:177-180 | Deleting lowers the number of records carrying the id by exactly one, so later duplicates survive |
| CampaignStore.CountIdPositive | src/pages/Index.tsx:167 | Some record carries the id exactly when the number of records carrying it is positive, so `findIndex` returns -1 exactly when that count is zero |
| CampaignStore.DuplicatesSurviveDelete | src/pages/Index.tsx:177-180 | When two or more records carry the id, deleting it succeeds and a record with that id is still in the list |
| CampaignStore.DeleteMultiset | src/pages/Index.tsx:177-180 | The records after a delete, together with the removed record, are the records before it (as a multiset) |
| CampaignStore.FindIndexAppendFresh | src/pages/Index.tsx:161-167 | After appending a record that is the only one with its id, `findIndex` finds it at the old length |
| CampaignStore.CreateThenDelete | src/pages/Index.tsx:154-183 | Creating under an unused id and then deleting that id returns `true` and restores the original list |
| CampaignStore.FindIndexStable | src/pages/Index.tsx:167-169 | The first match is unchanged by any edit that leaves earlier records alone and keeps the id on the matched one |
| CampaignStore.UpdateIdempotent | src/pages/Index.tsx:167-170 | Repeating an update that does not touch `id` gives the same list and record as doing it once |
| CampaignStore.UpdateEmptyIsIdentity | src/pages/Index.tsx:167-170 | An update with no properties leaves the list unchanged and returns the matched record |
| Dashboard.ToggleTheme | src/pages/Index.tsx:196-200 | `light` maps to `dark` and anything else maps to `light`, both directions. The `dark` class is set exactly when the new theme is `dark` |
| Dashboard.ToggleTwice | src/pages/Index.tsx:196-197 | Toggling twice returns `light` or `dark` to itself, and takes any other string to `dark` |
| Dashboard.ThemeButtonIcon | src/pages/Index.tsx:564 | The theme button shows `dark_mode` exactly while the theme is `light`, and `light_mode` otherwise |
| Dashboard.ThemeButtonFollowsToggle | src/pages/Index.tsx:196-199 | After a toggle, the button shows `light_mode` exactly when the page has gone dark, so it always offers the other theme |
| Dashboard.Slice | src/pages/Index.tsx:600 | The slice is never longer than the input. With a non-negative start it is a contiguous run of the input beginning at `start`. With in-range bounds its length is `end - start`. An `end` past the input is clamped, so the slice runs to the end. A negative `start` or `end` counts from the end, whatever the other bound. A bound below `-n` is clamped to 0, so such a `start` takes the slice from the first element and such an `end` gives the empty slice. When the normalised `end` is at or before the normalised `start`, the slice is empty. Together these fix the result for every `start` and `end` |
| Dashboard.SliceSpecDetermines | src/pages/Index.tsx:600 | The case list that `Slice` is proved to meet admits exactly one result for every `start` and `end`, so the contract fixes the whole of JavaScript's `slice` |
| Dashboard.RecentIsPrefix | src/pages/Index.tsx:600 | The dashboard shows the first `min(5, n)` campaigns in their original order, and all of them when there are at most five |
| Dashboard.StatusBadge | src/pages/Index.tsx:636-645 | `ACTIVE` and `PAUSED` each get their own badge, both directions. Every other status gets the inactive badge |
| Dashboard.CreatedCampaignShowsActive | src/pages/Index.tsx:156-160 | A campaign just created through the store gets the active badge, whatever status was supplied |
| Dashboard.NotificationIcon | src/pages/Index.tsx:265-272 | `WARNING`, `SUCCESS` and `INFO` each get their own icon, both directions. Every other type gets the loudspeaker default |
| Dashboard.NotificationColor | src/pages/Index.tsx:274-281 | The same three types each get their own colour classes, both directions. Every other type gets the neutral default |
| Dashboard.IconAndColorAgree | src/pages/Index.tsx:265-281 | A notification gets the default icon exactly when it gets the default colour |

## Left out

- Rendering, styling, skeletons, dropdown visibility and navigation in src/pages/Index.tsx: presentation with no behaviour beyond the helpers above.
- The `setTimeout` delays of the mock API, and `Date.now()`: the fresh id is a parameter of `Create`.
- `new Date().toISOString()`: the timestamp is an opaque `now` parameter of `Handle`.
- The runtime's exception text when destructuring `req.body` throws: it is the `thrown` parameter of `Handle`. This covers a body that is `undefined` or `null`. It also covers malformed JSON on a runtime whose `req.body` getter parses lazily, which throws inside the `try` and gives the same 500. Both are a request with no body.
- `console.log` / `console.error` in the handler and the four `process*` stubs: logging has no effect on the response. A stub's effect is modelled only as which stub was called (`dispatched`).
- The platform's header lower-casing, repeated headers delivered as arrays, and the `res` object API: a request is its method, the two headers as optional strings, and the body.
- Webhook.Handle: `event` is modelled only as a string or absent. A primitive body destructures with `event` undefined, and the model represents it as a body with no event. A non-string `event` matches no tag, so it usually gets 200 with `event` echoed unchanged; the model cannot represent that value. An object `event` whose `toString` is not callable makes the template literal at api/webhook.js:26 throw, which gives 500; the model does not cover that path.
- The float metrics (`budget`, `ctr`, `cpc`, `costPerConversion`), `toLocaleString`, and the `metrics?.x || 0` card values: floating point and locale formatting. Property values other than text are carried as `Opaque`.
- CampaignStore.Create: the supplied `campaign` is assumed to be a plain object. Spreading a string or an array, which would add index-named properties, is not modelled.
- `api.getCampaigns`, `getAds`, `getMetrics` and `getNotifications`: each only returns a mock array after a delay.
- src/pages/Auth.tsx is not part of this model. It is one hard-coded e-mail comparison followed by a call to `signIn` from the `useAuth` hook, plus toast and navigation side effects.

=== FILE: campaign_store.dfy ===
/** The in-memory mock campaign API of the dashboard: create, update and
    delete on the shared list of campaign records.

    A campaign is a JavaScript object, modelled as a map from property name to
    value, so that object spread `{ ...a, ...b }` is the map union `a + b`
    (properties of `b` win). Each operation takes the list before the call and
    returns the list after it together with what the call returns; a thrown
    `Error` is an `Err` result and leaves the list as it was. The created id
    (`Date.now().toString()`) is a parameter.
 */
module CampaignStore {
  import opened Wrappers

  /** A property value. Only text is compared by the store; every other value
      (numbers, floats, nested objects) is carried opaquely. */
  datatype Value = Text(s: string) | Opaque(raw: string)

  type Campaign = map<string, Value>

  const NotFound := "Campaign not found"
  const Active := "ACTIVE"

  /** The `findIndex` predicate `c => c.id === id`: an absent or non-text id never matches. */
  predicate HasId(c: Campaign, id: string) {
    "id" in c && c["id"] == Text(id)
  }

  /** No record of `cs` has the given id. */
  predicate NoneHasId(cs: seq<Campaign>, id: string) {
    forall j :: 0 <= j < |cs| ==> !HasId(cs[j], id)
  }

  /** `findIndex`: the index of the first record with the id, or None for `-1`. */
  function FindIndex(cs: seq<Campaign>, id: string): (r: Option<nat>)
    ensures r.Some? ==> r.value < |cs| && HasId(cs[r.value], id)
    ensures r.Some? ==> forall j :: 0 <= j < r.value ==> !HasId(cs[j], id)
    ensures r.None? <==> NoneHasId(cs, id)
  {
    if |cs| == 0 then None
    else if HasId(cs[0], id) then Some(0)
    else
      match FindIndex(cs[1..], id)
      case None => None
      case Some(k) => Some(k + 1)
  }

  /** `createCampaign`: the supplied record with its `id` and `status`
      overridden, appended at the end; the new record is returned. */
  function Create(cs: seq<Campaign>, campaign: Campaign, freshId: string): (r: (seq<Campaign>, Campaign))
    ensures |r.0| == |cs| + 1
    ensures r.0[..|cs|] == cs
    ensures r.0[|cs|] == r.1
    ensures r.1.Keys == campaign.Keys + {"id", "status"}
    ensures r.1["id"] == Text(freshId) && r.1["status"] == Text(Active)
    ensures forall k :: k in campaign && k !in {"id", "status"} ==> r.1[k] == campaign[k]
  {
    var created := campaign + map["id" := Text(freshId), "status" := Text(Active)];
    (cs + [created], created)
  }

  /** `updateCampaign`: the first record with the id becomes the old record
      merged with `updates`, and the merged record is returned; with no such
      record the call throws and the list is unchanged. */
  function Update(cs: seq<Campaign>, id: string, updates: Campaign): (r: Result<(seq<Campaign>, Campaign)>)
    ensures r.Err? <==> NoneHasId(cs, id)
    ensures r.Err? ==> r.message == NotFound
    ensures r.Ok? ==>
              var i := FindIndex(cs, id).value;
              var (after, merged) := r.value;
              && |after| == |cs|
              && after[i] == merged
              && merged.Keys == cs[i].Keys + updates.Keys
              && (forall k :: k in updates ==> merged[k] == updates[k])
              && (forall k :: k in cs[i] && k !in updates ==> merged[k] == cs[i][k])
              && (forall j :: 0 <= j < |cs| && j != i ==> after[j] == cs[j])
  {
    match FindIndex(cs, id)
    case None => Err(NotFound)
    case Some(i) =>
      var merged := cs[i] + updates;
      Ok((cs[i := merged], merged))
  }

  /** `deleteCampaign`: the first record with the id is spliced out and the
      call returns `true`; with no such record the call throws and the list
      is unchanged. */
  function Delete(cs: seq<Campaign>, id: string): (r: Result<(seq<Campaign>, bool)>)
    ensures r.Err? <==> NoneHasId(cs, id)
    ensures r.Err? ==> r.message == NotFound
    ensures r.Ok? ==>
              var i := FindIndex(cs, id).value;
              var after := r.value.0;
              && r.value.1
              && |after| == |cs| - 1
              && after == cs[..i] + cs[i + 1..]
  {
    match FindIndex(cs, id)
    case None => Err(NotFound)
    case Some(i) => Ok((cs[..i] + cs[i + 1..], true))
  }

  /** The number of records carrying the id. */
  function CountId(cs: seq<Campaign>, id: string): nat {
    if |cs| == 0 then 0 else (if HasId(cs[0], id) then 1 else 0) + CountId(cs[1..], id)
  }

  lemma {:induction false} CountIdAppend(a: seq<Campaign>, b: seq<Campaign>, id: string)
    ensures CountId(a + b, id) == CountId(a, id) + CountId(b, id)
  {
    if |a| == 0 {
      assert a + b == b;
    } else {
      assert (a + b)[1..] == a[1..] + b;
      CountIdAppend(a[1..], b, id);
    }
  }

  lemma {:induction false} CountIdZero(cs: seq<Campaign>, id: string)
    requires NoneHasId(cs, id)
    ensures CountId(cs, id) == 0
  {
    if |cs| > 0 {
      CountIdZero(cs[1..], id);
    }
  }

  /** A record with the id survives in the list exactly when `CountId` is positive. */
  lemma {:induction false} CountIdPositive(cs: seq<Campaign>, id: string)
    ensures CountId(cs, id) > 0 <==> !NoneHasId(cs, id)
  {
    if |cs| == 0 {
    } else {
      CountIdPositive(cs[1..], id);
      if !HasId(cs[0], id) && !NoneHasId(cs, id) {
        var j :| 0 <= j < |cs| && HasId(cs[j], id);
        assert cs[1..][j - 1] == cs[j];
      }
    }
  }

  /** Delete removes exactly one record carrying the id: later duplicates survive. */
  lemma DeleteRemovesOneMatch(cs: seq<Campaign>, id: string)
    requires !NoneHasId(cs, id)
    ensures Delete(cs, id).Ok?
    ensures CountId(Delete(cs, id).value.0, id) == CountId(cs, id) - 1
  {
    var i := FindIndex(cs, id).value;
    assert cs == cs[..i] + cs[i..];
    assert cs[i..] == [cs[i]] + cs[i + 1..];
    CountIdAppend(cs[..i], cs[i..], id);
    CountIdAppend([cs[i]], cs[i + 1..], id);
    CountIdAppend(cs[..i], cs[i + 1..], id);
    assert NoneHasId(cs[..i], id);
    CountIdZero(cs[..i], id);
  }

  /** When the id occurs more than once, a record carrying it is still in
      the list after the delete. */
  lemma DuplicatesSurviveDelete(cs: seq<Campaign>, id: string)
    requires CountId(cs, id) >= 2
    ensures Delete(cs, id).Ok?
    ensures !NoneHasId(Delete(cs, id).value.0, id)
  {
    CountIdPositive(cs, id);
    DeleteRemovesOneMatch(cs, id);
    CountIdPositive(Delete(cs, id).value.0, id);
  }

  /** Splicing one element out of a sequence removes exactly it from the multiset. */
  lemma MultisetSplice<T>(s: seq<T>, i: nat)
    requires i < |s|
    ensures multiset(s[..i] + s[i + 1..]) + multiset{s[i]} == multiset(s)
  {
    assert s == s[..i] + ([s[i]] + s[i + 1..]);
  }

  /** Delete is a permutation-preserving removal: the multiset of records
      loses exactly the removed record. */
  lemma DeleteMultiset(cs: seq<Campaign>, id: string)
    requires !NoneHasId(cs, id)
    ensures var i := FindIndex(cs, id).value;
            multiset(Delete(cs, id).value.0) + multiset{cs[i]} == multiset(cs)
  {
    var i := FindIndex(cs, id).value;
    assert Delete(cs, id).value.0 == cs[..i] + cs[i + 1..];
    MultisetSplice(cs, i);
  }

  /** Finding an id that only the appended record carries yields the appended index. */
  lemma {:induction false} FindIndexAppendFresh(cs: seq<Campaign>, c: Campaign, id: string)
    requires NoneHasId(cs, id) && HasId(c, id)
    ensures FindIndex(cs + [c], id) == Some(|cs|)
  {
    if |cs| == 0 {
    } else {
      assert (cs + [c])[1..] == cs[1..] + [c];
      assert NoneHasId(cs[1..], id) by {
        forall j | 0 <= j < |cs[1..]| ensures !HasId(cs[1..][j], id) {
          assert cs[1..][j] == cs[j + 1];
        }
      }
      FindIndexAppendFresh(cs[1..], c, id);
    }
  }

  /** Creating a campaign under an unused id and then deleting that id restores the list. */
  lemma CreateThenDelete(cs: seq<Campaign>, campaign: Campaign, freshId: string)
    requires NoneHasId(cs, freshId)
    ensures Delete(Create(cs, campaign, freshId).0, freshId) == Ok((cs, true))
  {
    var (after, created) := Create(cs, campaign, freshId);
    FindIndexAppendFresh(cs, created, freshId);
    assert after[..|cs|] + after[|cs| + 1..] == cs;
  }

  /** The first match of a list depends only on the prefix up to and including it. */
  lemma FindIndexStable(cs: seq<Campaign>, cs': seq<Campaign>, id: string, i: nat)
    requires |cs'| == |cs| && i < |cs|
    requires FindIndex(cs, id) == Some(i)
    requires forall j :: 0 <= j < i ==> cs'[j] == cs[j]
    requires HasId(cs'[i], id)
    ensures FindIndex(cs', id) == Some(i)
  {
  }

  /** Updating with the same record twice is the same as once, as long as the
      update does not move the id away. */
  lemma UpdateIdempotent(cs: seq<Campaign>, id: string, updates: Campaign)
    requires !NoneHasId(cs, id)
    requires "id" !in updates
    ensures var once := Update(cs, id, updates).value;
            Update(once.0, id, updates) == Ok(once)
  {
    var i := FindIndex(cs, id).value;
    var once := Update(cs, id, updates).value;
    FindIndexStable(cs, once.0, id, i);
    assert once.1 + updates == once.1;
    assert once.0[i := once.1] == once.0;
  }

  /** An empty update returns the matched record and leaves the list unchanged. */
  lemma UpdateEmptyIsIdentity(cs: seq<Campaign>, id: string)
    requires !NoneHasId(cs, id)
    ensures Update(cs, id, map[]) == Ok((cs, cs[FindIndex(cs, id).value]))
  {
    var i := FindIndex(cs, id).value;
    assert cs[i] + map[] == cs[i];
    assert cs[i := cs[i]] == cs;
  }
}

=== FILE: dashboard.dfy ===
/** The small pure helpers of the dashboard page: the theme toggle, the
    "recent campaigns" prefix, and the tag-to-presentation switches. */
module Dashboard {
  import CampaignStore

  const Light := "light"
  const Dark := "dark"

  /** The state `toggleTheme` leaves behind: the new theme, and whether the
      document root carries the `dark` class. */
  datatype ThemeState = ThemeState(theme: string, darkClass: bool)

  /** `toggleTheme`: `light` becomes `dark`, anything else becomes `light`;
      the `dark` class is set exactly when the new theme is `dark`. */
  function ToggleTheme(theme: string): (r: ThemeState)
    ensures r.theme == Dark <==> theme == Light
    ensures r.theme == Light <==> theme != Light
    ensures r.darkClass <==> r.theme == Dark
  {
    var next := if theme == Light then Dark else Light;
    ThemeState(next, next == Dark)
  }

  /** Toggling twice returns to `light` or `dark`; from any other string it
      ends at `dark`, since the first toggle goes to `light`. */
  lemma ToggleTwice(theme: string)
    ensures theme in {Light, Dark} ==> ToggleTheme(ToggleTheme(theme).theme).theme == theme
    ensures theme !in {Light, Dark} ==> ToggleTheme(ToggleTheme(theme).theme).theme == Dark
  {
  }

  /** The icon name of the theme button: `dark_mode` while light, `light_mode` otherwise. */
  function ThemeButtonIcon(theme: string): (icon: string)
    ensures icon == "dark_mode" <==> theme == Light
    ensures icon != "dark_mode" ==> icon == "light_mode"
  {
    if theme == Light then "dark_mode" else "light_mode"
  }

  /** After a toggle the button offers the other theme: `light_mode` exactly
      when the page has just gone dark. */
  lemma ThemeButtonFollowsToggle(theme: string)
    ensures ThemeButtonIcon(ToggleTheme(theme).theme) == "light_mode" <==> ToggleTheme(theme).darkClass
  {
  }

  /** What JavaScript's `Array.prototype.slice(start, end)` promises, case by
      case: negative bounds count from the end, bounds are clamped to
      `[0, |s|]`, and crossing bounds give the empty slice. */
  ghost predicate SliceSpec<T>(s: seq<T>, start: int, end: int, r: seq<T>) {
    && |r| <= |s|
    && (0 <= start ==> forall i :: 0 <= i < |r| ==> start + i < |s| && r[i] == s[start + i])
    && (0 <= start <= end <= |s| ==> |r| == end - start)
    && (0 <= start <= |s| <= end ==> r == s[start..])
    && (-|s| <= start < 0 && |s| <= end ==> r == s[|s| + start..])
    && (-|s| <= end < 0 && 0 <= start <= |s| + end ==> r == s[start..|s| + end])
    && (0 <= end <= start ==> r == [])
    && (|s| <= start ==> r == [])
    && (-|s| <= start < 0 && |s| + start <= end <= |s| ==> r == s[|s| + start..end])
    && (-|s| <= start <= end < 0 ==> r == s[|s| + start..|s| + end])
    && (start <= -|s| && 0 <= end <= |s| ==> r == s[..end])
    && (end <= -|s| ==> r == [])
    && (start <= -|s| && |s| <= end ==> r == s)
    && (start <= -|s| && -|s| <= end < 0 ==> r == s[..|s| + end])
    && (0 <= start && -|s| <= end < 0 && |s| + end <= start ==> r == [])
    && (end < start < 0 ==> r == [])
    && (-|s| <= start < 0 && 0 <= end <= |s| + start ==> r == [])
  }

  /** JavaScript's `Array.prototype.slice(start, end)`. */
  function Slice<T>(s: seq<T>, start: int, end: int): (r: seq<T>)
    ensures SliceSpec(s, start, end, r)
  {
    var len := |s|;
    var from := if start < 0 then (if len + start < 0 then 0 else len + start)
                else (if start > len then len else start);
    var to := if end < 0 then (if len + end < 0 then 0 else len + end)
              else (if end > len then len else end);
    if from >= to then [] else s[from..to]
  }

  /** The case list of `SliceSpec` is complete: it admits exactly one result
      for every input, the one `Slice` computes. */
  lemma SliceSpecDetermines<T>(s: seq<T>, start: int, end: int, r: seq<T>)
    requires SliceSpec(s, start, end, r)
    ensures r == Slice(s, start, end)
  {
  }

  const RecentCount := 5

  /** The campaigns the dashboard table shows: `slice(0, 5)`. */
  function Recent<T>(campaigns: seq<T>): (r: seq<T>)
  {
    Slice(campaigns, 0, RecentCount)
  }

  /** The dashboard shows the first `min(5, |campaigns|)` campaigns, in order. */
  lemma RecentIsPrefix<T>(campaigns: seq<T>)
    ensures |Recent(campaigns)| == if |campaigns| < RecentCount then |campaigns| else RecentCount
    ensures forall i :: 0 <= i < |Recent(campaigns)| ==> Recent(campaigns)[i] == campaigns[i]
    ensures |campaigns| <= RecentCount ==> Recent(campaigns) == campaigns
  {
  }

  /** A status badge: its CSS class and its label. */
  datatype Badge = Badge(cssClass: string, text: string)

  const ActiveBadge := Badge("badge-success", "Ativo")
  const PausedBadge := Badge("badge-warning", "Pausado")
  const InactiveBadge := Badge("badge-error", "Inativo")

  /** `getStatusBadge`: `ACTIVE` and `PAUSED` have their own badges, every
      other status is shown as inactive. */
  function StatusBadge(status: string): (b: Badge)
    ensures b == ActiveBadge <==> status == "ACTIVE"
    ensures b == PausedBadge <==> status == "PAUSED"
    ensures b == InactiveBadge <==> status !in {"ACTIVE", "PAUSED"}
  {
    match status
    case "ACTIVE" => ActiveBadge
    case "PAUSED" => PausedBadge
    case _ => InactiveBadge
  }

  /** A campaign just created through the store is always shown with the
      active badge, whatever status was supplied. */
  lemma CreatedCampaignShowsActive(cs: seq<CampaignStore.Campaign>, campaign: CampaignStore.Campaign,
                                   freshId: string)
    ensures StatusBadge(CampaignStore.Create(cs, campaign, freshId).1["status"].s) == ActiveBadge
  {
  }

  const WarningIcon := "\U{26A0}\U{FE0F}"
  const SuccessIcon := "\U{2705}"
  const InfoIcon := "\U{2139}\U{FE0F}"
  const DefaultIcon := "\U{1F4E2}"

  /** `getNotificationIcon`: one icon per known notification type, a
      loudspeaker for every other type. */
  function NotificationIcon(kind: string): (icon: string)
    ensures icon == WarningIcon <==> kind == "WARNING"
    ensures icon == SuccessIcon <==> kind == "SUCCESS"
    ensures icon == InfoIcon <==> kind == "INFO"
    ensures icon == DefaultIcon <==> kind !in {"WARNING", "SUCCESS", "INFO"}
  {
    match kind
    case "WARNING" => WarningIcon
    case "SUCCESS" => SuccessIcon
    case "INFO" => InfoIcon
    case _ => DefaultIcon
  }

  const WarningColor := "border-warning/20 bg-warning/5"
  const SuccessColor := "border-accent/20 bg-accent/5"
  const InfoColor := "border-primary/20 bg-primary/5"
  const DefaultColor := "border-border bg-background"

  /** `getNotificationColor`: the same three known types, each with its own
      colour classes, and a neutral default. */
  function NotificationColor(kind: string): (color: string)
    ensures color == WarningColor <==> kind == "WARNING"
    ensures color == SuccessColor <==> kind == "SUCCESS"
    ensures color == InfoColor <==> kind == "INFO"
    ensures color == DefaultColor <==> kind !in {"WARNING", "SUCCESS", "INFO"}
  {
    match kind
    case "WARNING" => WarningColor
    case "SUCCESS" => SuccessColor
    case "INFO" => InfoColor
    case _ => DefaultColor
  }

  /** Icon and colour agree on which types are known: a notification gets
      the default icon exactly when it gets the default colour. */
  lemma IconAndColorAgree(kind: string)
    ensures NotificationIcon(kind) == DefaultIcon <==> NotificationColor(kind) == DefaultColor
  {
  }
}

=== FILE: webhook.dfy ===
/** The serverless webhook receiver: one handler that answers CORS preflight,
    checks a shared secret, and dispatches a `{ event, data }` body to one of
    four logging stubs by exact tag match.

    The handler is modelled as a pure function from the request, the configured
    secret (the `WEBHOOK_SECRET` environment value, read per request), the clock
    reading used for the ISO-8601 `timestamp`, and the message of the exception
    the runtime raises when the body cannot be destructured. The four `process*`
    stubs only log, so their whole effect is the `dispatched` tag of the response.
 */
module Webhook {
  import opened Wrappers

  /** A parsed request body. `event` is `undefined` when the body has no such
      property; `data` is carried opaquely as its raw text. */
  datatype Body = Body(event: Option<string>, data: string)

  /** The parts of an incoming request the handler reads. Header names are the
      lower-cased ones the platform delivers; `body` is None when reading
      `{ event, data }` from `req.body` throws: the body is `undefined` or
      `null`, or a runtime that parses JSON lazily fails on malformed text. */
  datatype Request = Request(
    httpMethod: string,
    webhookSecret: Option<string>,   // x-webhook-secret
    authorization: Option<string>,   // authorization
    body: Option<Body>)

  /** The four processing stubs an event can be dispatched to. */
  datatype Handler = ProcessMessage | ProcessLead | ProcessConversion | ProcessPayment

  datatype Header = Header(name: string, value: string)

  /** The JSON body of a response; `Empty` is the body-less `end()` of a preflight. */
  datatype ResponseBody =
    | Empty
    | ErrorOnly(error: string)
    | Acknowledged(success: bool, message: string, timestamp: string, event: Option<string>)
    | InternalError(error: string, message: string)

  datatype Response = Response(
    status: nat,
    headers: seq<Header>,
    body: ResponseBody,
    dispatched: Option<Handler>)

  const AllowOrigin := Header("Access-Control-Allow-Origin", "*")
  const AllowMethods := Header("Access-Control-Allow-Methods", "GET, POST, PUT, DELETE, OPTIONS")
  const AllowHeaders := Header("Access-Control-Allow-Headers", "Content-Type, Authorization")

  /** The CORS headers, set before any branch of the handler. */
  const CorsHeaders: seq<Header> := [AllowOrigin, AllowMethods, AllowHeaders]

  const UnauthorizedError := "Unauthorized"
  const MethodNotAllowedError := "Método não permitido"
  const InternalServerError := "Erro interno do servidor"
  const SuccessMessage := "Webhook processado com sucesso"

  /** JavaScript truthiness of an optional string header: present and non-empty. */
  predicate Truthy(h: Option<string>) {
    h.Some? && h.value != ""
  }

  /** `x-webhook-secret || authorization`: the first header when truthy,
      otherwise the second one exactly as sent (which may be absent or empty). */
  function PresentedSecret(req: Request): (s: Option<string>)
    ensures Truthy(req.webhookSecret) ==> s == req.webhookSecret
    ensures !Truthy(req.webhookSecret) ==> s == req.authorization
    ensures req.webhookSecret.None? && req.authorization.None? ==> s.None?
  {
    if Truthy(req.webhookSecret) then req.webhookSecret else req.authorization
  }

  /** The strict-equality secret check; `undefined === undefined` passes. */
  predicate Authenticated(req: Request, configured: Option<string>) {
    PresentedSecret(req) == configured
  }

  /** The `switch (event)`: exact match against the four tags, no target otherwise. */
  function Route(event: Option<string>): (h: Option<Handler>)
    ensures h == Some(ProcessMessage) <==> event == Some("message")
    ensures h == Some(ProcessLead) <==> event == Some("lead")
    ensures h == Some(ProcessConversion) <==> event == Some("conversion")
    ensures h == Some(ProcessPayment) <==> event == Some("payment")
  {
    match event
    case Some("message") => Some(ProcessMessage)
    case Some("lead") => Some(ProcessLead)
    case Some("conversion") => Some(ProcessConversion)
    case Some("payment") => Some(ProcessPayment)
    case _ => None
  }

  /** True when the event is one of the four recognised tags. */
  predicate KnownEvent(event: Option<string>) {
    event.Some? && event.value in {"message", "lead", "conversion", "payment"}
  }

  /** The handler. `now` is the ISO-8601 rendering of the current time and
      `thrown` the message of the exception raised by destructuring a missing body. */
  function Handle(req: Request, configured: Option<string>, now: string, thrown: string): (r: Response)
    // CORS headers on every path, including 401 and 405
    ensures r.headers == CorsHeaders
    // preflight is answered before authentication
    ensures req.httpMethod == "OPTIONS" ==> r.status == 200 && r.body == Empty && r.dispatched.None?
    // the secret check precedes the method check
    ensures r.status == 401 <==> req.httpMethod != "OPTIONS" && !Authenticated(req, configured)
    ensures r.status == 401 ==> r.body == ErrorOnly(UnauthorizedError)
    ensures r.status == 405 <==>
              req.httpMethod !in {"OPTIONS", "POST"} && Authenticated(req, configured)
    ensures r.status == 405 ==> r.body == ErrorOnly(MethodNotAllowedError)
    // a missing body makes the destructuring throw
    ensures r.status == 500 <==>
              req.httpMethod == "POST" && Authenticated(req, configured) && req.body.None?
    ensures r.status == 500 ==> r.body == InternalError(InternalServerError, thrown)
    // an accepted POST is acknowledged whatever its event
    ensures r.body.Acknowledged? <==>
              req.httpMethod == "POST" && Authenticated(req, configured) && req.body.Some?
    ensures r.body.Acknowledged? ==>
              r.status == 200 && r.body.success && r.body.message == SuccessMessage
              && r.body.event == req.body.value.event
              && r.body.timestamp == now
    // at most one stub runs, and only for an accepted POST with a known tag
    ensures r.dispatched.Some? <==>
              req.httpMethod == "POST" && Authenticated(req, configured) && req.body.Some?
              && KnownEvent(req.body.value.event)
    ensures r.dispatched.Some? ==> r.dispatched == Route(req.body.value.event)
    ensures r.status in {200, 401, 405, 500}
  {
    if req.httpMethod == "OPTIONS" then
      Response(200, CorsHeaders, Empty, None)
    else if !Authenticated(req, configured) then
      Response(401, CorsHeaders, ErrorOnly(UnauthorizedError), None)
    else if req.httpMethod == "POST" then
      match req.body
      case None =>
        Response(500, CorsHeaders, InternalError(InternalServerError, thrown), None)
      case Some(b) =>
        Response(200, CorsHeaders, Acknowledged(true, SuccessMessage, now, b.event), Route(b.event))
    else
      Response(405, CorsHeaders, ErrorOnly(MethodNotAllowedError), None)
  }

  /** A preflight's response does not depend on its headers, its body or the
      configured secret: authentication is never consulted. */
  lemma PreflightIgnoresSecret(req1: Request, req2: Request, c1: Option<string>, c2: Option<string>,
                               now: string, thrown: string)
    requires req1.httpMethod == "OPTIONS" && req2.httpMethod == "OPTIONS"
    ensures Handle(req1, c1, now, thrown) == Handle(req2, c2, now, thrown)
  {
  }

  /** An unauthenticated request of any method other than OPTIONS, GET among
      them, is refused with 401 whatever its body; never 405. */
  lemma UnauthenticatedIs401(req: Request, configured: Option<string>, now: string, thrown: string)
    requires req.httpMethod != "OPTIONS"
    requires PresentedSecret(req) != configured
    ensures Handle(req, configured, now, thrown).status == 401
    ensures Handle(req, configured, now, thrown).body == ErrorOnly(UnauthorizedError)
  {
  }

  /** With no configured secret and neither header sent, the check passes. */
  lemma NoSecretNoHeaderPasses(req: Request, now: string, thrown: string)
    requires req.webhookSecret.None? && req.authorization.None?
    requires req.httpMethod == "POST" && req.body.Some?
    ensures Authenticated(req, None)
    ensures Handle(req, None, now, thrown).status == 200
  {
  }

  /** An empty `x-webhook-secret` is falsy and yields to `authorization`. */
  lemma EmptyWebhookSecretFallsBack(req: Request)
    requires req.webhookSecret == Some("")
    ensures PresentedSecret(req) == req.authorization
  {
  }

  /** An accepted POST with event `e` echoes `e`, and runs exactly the stub for
      `e` when it is a known tag and none otherwise. */
  lemma AcceptedPostDispatch(req: Request, configured: Option<string>, now: string, thrown: string)
    requires req.httpMethod == "POST" && Authenticated(req, configured) && req.body.Some?
    ensures var r := Handle(req, configured, now, thrown);
            && r.status == 200
            && r.body == Acknowledged(true, SuccessMessage, now, req.body.value.event)
            && (KnownEvent(req.body.value.event) <==> r.dispatched.Some?)
            && r.dispatched == Route(req.body.value.event)
  {
  }
}

=== FILE: wrappers.dfy ===
/** Shared wrapper types for the webhook and campaign store models. */
module Wrappers {

  /** A value that may be absent: `undefined` in the JavaScript source. */
  datatype Option<+T> = None | Some(value: T)

  /** Either the value an operation returns, or the message of the `Error` it throws. */
  datatype Result<+T> = Ok(value: T) | Err(message: string)
}
